=== FILE: README.md ===
# netmaker-ui rules in Dafny

A functional model of the decision logic underneath the netmaker-ui
administration dashboard, with its properties proved. Everything around it,
such as rendering, routing and HTTP, is left out. The model covers:

- the **connectivity classifier**, which labels a node unknown, error, warning
  or healthy from its last check-in time;
- **host health**, the worst known level over a host's nodes. This is
  computed once by the shared helper and again inline by the hosts page, and
  the model proves the two agree;
- the **ACL matrix editor** of the network details page. It keeps a working
  copy and a snapshot of a node-to-node map of levels (0 unset, 1 deny,
  2 allow) and offers these operations: symmetric cell toggle, Allow All,
  Block All, Reset, Submit, the equality flag that disables Reset and
  Submit, and restriction of the matrix to one network's nodes;
- two metric classifiers: the byte unit and the latency colour;
- the **list searches** of the hosts and users pages, the member count of a
  group, the access-level tag and the rule for offering "Edit";
- the **UI version** rule, the **backend-URL and tenant** resolution, the
  **Authorization-header** decision, and the **auth slice** of the store
  (initial state, `isLoggedIn`, `setStore`, `setFirstLogin`, `logout`).

Modules follow the source layout:

| file | module | source |
|---|---|---|
| `nullish.dfy` | `Nullish` | `Option` and the `??` operator |
| `seqs.dfy` | `Seqs` | `Array.filter` and `Array.map`, subsequences, counting |
| `text.dfy` | `Text` | `toLowerCase`, `trim`, `includes` and `startsWith` |
| `models.dfy` | `Models` | node, host and user records |
| `node_utils.dfy` | `NodeUtils` | `src/utils/NodeUtils.ts` |
| `host_health.dfy` | `HostHealth` | `getHostHealth` in `src/utils/Utils.tsx` |
| `hosts_page.dfy` | `HostsPage` | `src/pages/hosts/HostsPage.tsx` |
| `acl_editor.dfy` | `AclEditor` | ACL state of `src/pages/networks/NetworkDetailsPage.tsx` |
| `network_metrics.dfy` | `NetworkMetrics` | metric cells of the same page |
| `users_page.dfy` | `UsersPage` | `src/pages/users/UsersPage.tsx` |
| `server_config.dfy` | `ServerConfig` | `src/services/ServerConfigService.ts` |
| `auth.dfy` | `Auth` | `src/store/auth.ts` |
| `base_service.dfy` | `BaseService` | `src/services/BaseService.ts` |

The environment is passed in as parameters:

- the clock, as `nowMs`, an integer number of milliseconds;
- the build flag `isSaasBuild`;
- the window-injected backend URL and the build-time base URL;
- the URL query parameters;
- the server's answers to the ACL requests (`None` when a request fails);
- `isValidJwt`, as an uninterpreted function;
- `NULL_HOST`, as a map.

Points of the code that a reader might not expect:

- `hasAclsBeenEdited` holds, despite its name, when the working copy EQUALS
  the snapshot, and it disables Reset and Submit in exactly that case.
  `AclEditor.HasAclsBeenEdited` keeps this polarity.
- Toggling a diagonal cell (a, a) writes that one cell.
- When the mirror row of a toggled cell is missing, writing into it throws a
  TypeError. Nothing in the page catches it: it escapes React's render of
  the state update and goes to the nearest error boundary, if there is one.
  The model's `Throws(b)` stands for that error, not for an editor left
  unchanged. A cell whose level is neither deny nor allow shows a dash and
  no button, which the model calls `NoButton`.
- Selecting a group named "" sets the selection to "", which is falsy, so
  the page shows the unselected member list (the users of all filtered
  group rows). For such a group the count in its row and the member list
  disagree (`UsersPage.EmptyGroupNameDisagrees`).
- The classifier's elapsed-time test, `Date.now() / 1000 - last` against the
  thresholds, is stated exactly in integer milliseconds.

## Model

| member | source | states |
|---|---|---|
| NodeUtils.ConnectivityStatus | src/utils/NodeUtils.ts:12-22 | An absent check-in is unknown. At least 1800 s elapsed is error. [300, 1800) s is warning. Under 300 s, including check-ins in the future, is healthy. Each level is characterised in both directions. |
| NodeUtils.ThresholdBoundaries | src/utils/NodeUtils.ts:13-21 | In whole seconds, both thresholds are inclusive: 1800 s is error, 300 s is warning and 299 s is healthy. A missing check-in is unknown at any time. |
| NodeUtils.NodeConnectivityStatus | src/utils/NodeUtils.ts:29-31 | A node's level is the level of its `lastcheckin`, and it is unknown exactly when that field is absent. |
| NodeUtils.ExtendedNode | src/utils/NodeUtils.ts:41-44 | The merged node has the fields of the node and of the host details. A host-detail field wins over a node field of the same name, and every other node field is kept. If the host id has no details entry, the null host is merged instead. |
| HostHealth.Rank | src/utils/Utils.tsx:37-48 | The ranks are error 1, warning 2, healthy 3 and unknown 0, so rank 0 means unknown. |
| HostHealth.LevelOfRank | src/utils/Utils.tsx:56-65 | Ranks 1 to 3 read back as their level. Any other value, including the untouched start value, reads as unknown. |
| HostHealth.FoldMin | src/utils/Utils.tsx:51-54 | The running minimum is at most the start value and every element, and it is the start value or one of the elements. |
| HostHealth.HealthRanks | src/utils/Utils.tsx:34-49 | After the filter, the map and the zero-drop, only ranks 1 to 3 remain. |
| HostHealth.HealthRanksMembers | src/utils/Utils.tsx:34-49 | A level's rank survives the pipeline exactly when some node of that host has that level. |
| HostHealth.ViewOf | src/utils/Utils.tsx:56-65 | A tag is produced exactly when rendering. Otherwise the name is one of "unknown", "error", "warning" and "healthy". |
| HostHealth.GetHostHealth | src/utils/Utils.tsx:29-66 | The computed health equals the reference worst-level definition (`WorstHealth`), shown as a tag or as a name. |
| HostHealth.HostHealthIsWorst | src/utils/Utils.tsx:51-65 | The running minimum from `MAX_SAFE_INTEGER`, read back as a level, is the reference worst level. |
| HostHealth.WorstIsMinimum | src/utils/Utils.tsx:29-66 | The result is unknown exactly when every node of the host is unknown. Otherwise it is the level of one of the host's nodes, and no known node of the host ranks below it. |
| HostHealth.StatusNameIsOneOfFour | src/utils/Utils.tsx:56-65 | With `shouldRender` false, the result is a name from the four levels. |
| HostHealth.OrderIndependent | src/utils/Utils.tsx:51-54 | Two node lists with the same members give the same health, whatever their order or repetitions. |
| HostHealth.HasNodeWithAppend | src/utils/Utils.tsx:34-49 | Appending a node that is not a node of the host at level c does not change whether the host has a node at level c. |
| HostHealth.IrrelevantNodeIgnored | src/utils/Utils.tsx:34-49 | Appending a node of another host, or a node of unknown level, leaves the health unchanged. |
| HostHealth.UnknownAndErrorCases | src/utils/Utils.tsx:56-60 | A host with no nodes, or only unknown ones, is "unknown". One node in error makes the host "error". |
| HostHealth.MonotoneInCheckIn | src/utils/NodeUtils.ts:19-21 | At a fixed time, a later check-in never ranks worse than an earlier one. |
| HostsPage.FilteredHosts | src/pages/hosts/HostsPage.tsx:57-63 | A host is kept exactly when its lower-cased name includes the lower-cased search, and the result is exactly as long as the number of matching hosts, duplicates included. |
| HostsPage.FilteredHostsIgnoresCase | src/pages/hosts/HostsPage.tsx:57-63 | Searching with the lower-cased form of a search text finds the same hosts as the text itself. |
| HostsPage.FilteredHostsOrderAndEmpty | src/pages/hosts/HostsPage.tsx:57-63 | The result is an order-preserving subsequence of the hosts, and an empty search keeps every host. |
| HostsPage.HealthColumn | src/pages/hosts/HostsPage.tsx:172-204 | The inline loop of the health column shows the same tag as `getHostHealth(host.id, nodes)`, which is the worst known level of the host. |
| AclEditor.Initial | src/pages/networks/NetworkDetailsPage.tsx:137-138 | Before anything is loaded every cell of both copies reads as unset, and Reset and Submit are disabled. |
| AclEditor.Level | src/pages/networks/NetworkDetailsPage.tsx:956-957 | A cell's level is the stored value, or 0 where the row or the cell is missing. |
| AclEditor.SetPair | src/pages/networks/NetworkDetailsPage.tsx:912-916 | Both (a, b) and (b, a) hold the new level. All rows and all other cells are unchanged. |
| AclEditor.Toggle | src/pages/networks/NetworkDetailsPage.tsx:903-941 | There is no button exactly when the cell is neither deny nor allow. The click throws exactly when the cell is deny or allow and the mirror row is missing, and the error names that row. Otherwise both directions hold the flipped level (1 becomes 2, 2 becomes 1), nothing else changes, and the snapshot is untouched. The level it reads is the one the table shows for a listed node (`AclEditor.NetworkAclsLevel`). |
| AclEditor.ToggleKeepsSymmetry | src/pages/networks/NetworkDetailsPage.tsx:912-935 | On a symmetric matrix, every deny or allow cell can be toggled, and the result is symmetric again. |
| AclEditor.SetPairTwice | src/pages/networks/NetworkDetailsPage.tsx:912-935 | Writing a mirrored pair and then writing its old level back restores the matrix. |
| AclEditor.ToggleTwiceRestores | src/pages/networks/NetworkDetailsPage.tsx:903-941 | On a symmetric matrix, toggling the same deny or allow cell twice gives back the editor exactly. |
| AclEditor.SetAll | src/pages/networks/NetworkDetailsPage.tsx:1978-1987 | The same rows and the same cells are present, and every cell holds the given level. |
| AclEditor.AllowAll | src/pages/networks/NetworkDetailsPage.tsx:1976-1989 | Every existing cell becomes allow. No row or cell is added or removed, and the snapshot is untouched. |
| AclEditor.BlockAll | src/pages/networks/NetworkDetailsPage.tsx:1998-2011 | Every existing cell becomes deny. No row or cell is added or removed, and the snapshot is untouched. |
| AclEditor.SetAllKeepsSymmetry | src/pages/networks/NetworkDetailsPage.tsx:1976-2011 | Allow All and Block All keep a symmetric matrix symmetric. |
| AclEditor.Reset | src/pages/networks/NetworkDetailsPage.tsx:2019 | The working copy equals the snapshot, and the snapshot is unchanged. |
| AclEditor.Submit | src/pages/networks/NetworkDetailsPage.tsx:2025-2039 | A successful submit sets both copies to the matrix the server returns. A missing network id or a failed request leaves the editor unchanged. The initial load (lines 361-366) is the same transition. |
| AclEditor.HasAclsBeenEdited | src/pages/networks/NetworkDetailsPage.tsx:966 | The flag holds exactly when the working copy and the snapshot have the same rows, the same cells and the same levels. |
| AclEditor.SameCellsIsEquality | src/pages/networks/NetworkDetailsPage.tsx:966 | Cell-by-cell agreement is matrix equality. |
| AclEditor.EditActionsDisabled | src/pages/networks/NetworkDetailsPage.tsx:2014-2041 | Reset and Submit are disabled exactly when the working copy equals the snapshot. |
| AclEditor.PendingEditsLifecycle | src/pages/networks/NetworkDetailsPage.tsx:2019-2041 | After a Reset, or a successful load or submit, Reset and Submit are disabled. One successful toggle of a clean editor enables them. |
| AclEditor.AllowBlockResetRestores | src/pages/networks/NetworkDetailsPage.tsx:1976-2019 | Allow All, then Block All, then Reset gives back the snapshot in both copies. |
| AclEditor.NetworkNodes | src/pages/networks/NetworkDetailsPage.tsx:161-168 | A node is listed exactly when it belongs to the network and its lower-cased address includes the lower-cased host search. |
| AclEditor.NetworkNodesOrderAndEmpty | src/pages/networks/NetworkDetailsPage.tsx:161-168 | The listed nodes keep the store order, there are exactly as many as pass both tests, and an empty host search lists every node of the network. |
| AclEditor.NetworkAcls | src/pages/networks/NetworkDetailsPage.tsx:238-250 | The result has exactly the rows of `acls` whose key is the id of a listed node, and each row is unchanged. |
| AclEditor.NetworkAclsLevel | src/pages/networks/NetworkDetailsPage.tsx:244-262 | For a row of a listed network node, the level the table reads from `networkAcls` is the level of the working copy, which is the level `Toggle` acts on. A node that is not listed has no level at all. |
| NetworkMetrics.ByteUnit | src/pages/networks/NetworkDetailsPage.tsx:974-984 | The unit bands use strict thresholds: TiB above 10^12, GiB above 10^9, MiB above 10^6, KiB above 10^3, and B otherwise. Each band is characterised in both directions. |
| NetworkMetrics.ByteUnitMonotone | src/pages/networks/NetworkDetailsPage.tsx:974-984 | A larger count is never shown in a smaller unit. |
| NetworkMetrics.LatencyColor | src/pages/networks/NetworkDetailsPage.tsx:1042-1046 | Red above 500 ms, yellow in (300, 500] ms, and the default colour otherwise. Each band is characterised in both directions. |
| NetworkMetrics.LatencyColorMonotone | src/pages/networks/NetworkDetailsPage.tsx:1042-1046 | A higher latency is never shown in a milder colour. |
| UsersPage.BlankSearchMatches | src/pages/users/UsersPage.tsx:356 | A search of whitespace only matches every name. |
| Text.TrimIsInfix | src/pages/users/UsersPage.tsx:356 | `trim` returns a contiguous piece of its input, and only whitespace lies before and after that piece. |
| Text.IncludesIffOccurs | src/pages/hosts/HostsPage.tsx:60 | `includes` holds exactly when the searched text occurs at some position of the haystack. |
| UsersPage.FilteredUsers | src/pages/users/UsersPage.tsx:354-358 | A user is kept exactly when their lower-cased name includes the trimmed, lower-cased search. The result is exactly as long as the number of matching users, duplicates included. |
| UsersPage.FilteredUsersOrderAndBlank | src/pages/users/UsersPage.tsx:354-358 | The result keeps list order, and an all-whitespace search keeps everyone. |
| UsersPage.GroupRows | src/pages/users/UsersPage.tsx:367 | Each group name becomes a `{name}` row at the same position, so a row is present exactly when its name is a group. |
| UsersPage.FilteredGroups | src/pages/users/UsersPage.tsx:365-369 | A `{name}` row is present exactly when the name is a group that matches the trimmed search, and there are exactly as many rows as matching group names. |
| UsersPage.FilteredGroupsOrder | src/pages/users/UsersPage.tsx:365-369 | The row names are an order-preserving subsequence of the group list. |
| UsersPage.SubsequenceOfNames | src/pages/users/UsersPage.tsx:366-368 | Taking the names of a subsequence of rows gives a subsequence of the names. |
| UsersPage.RowNames | src/pages/users/UsersPage.tsx:375-378 | The names recorded in `groupsMap` are exactly the names of the filtered rows. |
| UsersPage.FilteredGroupUsersAsWritten | src/pages/users/UsersPage.tsx:371-380 | As written, without a selection, a user is listed iff one of their groups is truthy in `groupsMap`. That includes the names inherited from `Object.prototype`. |
| UsersPage.InheritedNameLeaks | src/pages/users/UsersPage.tsx:375-379 | A user whose only group is "constructor" is listed by the code as written even when no group row exists. The corrected definition does not list them. |
| UsersPage.FilteredGroupUsers | src/pages/users/UsersPage.tsx:371-380 | With a non-empty selected group, the result is exactly its members, and the group search is ignored. Otherwise a user is listed iff one of their groups is a filtered row. Users without groups are never listed, list order is kept, and the result is exactly as long as the number of users passing the member test. |
| UsersPage.GroupUsersCount | src/pages/users/UsersPage.tsx:296-303 | The count is the number of users whose groups include the group. |
| UsersPage.GroupCountMatchesMembers | src/pages/users/UsersPage.tsx:297-303 | For a group with a non-empty name, its count equals the number of members listed when that group is selected. |
| UsersPage.EmptyGroupNameDisagrees | src/pages/users/UsersPage.tsx:371-373 | For a group named "", selecting it shows the unselected list: with bob in "" and "x" and carol in "x", the count of "" is 1 while both users are listed. |
| UsersPage.AccessLevelLabel | src/pages/users/UsersPage.tsx:244-255 | There is a tag exactly for levels 0 to 3, and its first character is the level's digit. |
| UsersPage.CanEditUser | src/pages/users/UsersPage.tsx:182 | "Edit" is offered exactly to non-admins and to the admin who is the signed-in user. |
| UsersPage.EditRule | src/pages/users/UsersPage.tsx:182 | The signed-in user can always edit their own row, every non-admin can be edited, and an admin other than the signed-in user never can. |
| ServerConfig.UiVersion | src/services/ServerConfigService.ts:14-22 | An empty version gives "latest". A version starting with v or V is kept. Any other gets a "v" prefix. For non-empty input, the result starts with v or V and ends with the input. |
| ServerConfig.UiVersionIdempotent | src/services/ServerConfigService.ts:18-21 | For non-empty input the rule is idempotent. For the empty version it is not: the empty version gives "latest", and "latest" gives "vlatest". |
| Auth.Initial | src/store/auth.ts:25-34 | The created slice is already in the logged-out shape (logout leaves it unchanged), with an empty backend URL and the first-login flag set. |
| Auth.IsLoggedIn | src/store/auth.ts:36-39 | Logged in exactly when the token is non-empty and valid and, outside the SaaS build, a user is loaded. |
| Auth.SetStore | src/store/auth.ts:40-42 | Every field present in the patch is overwritten, and every absent field and the first-login flag keep their values. |
| Auth.SetStoreLaws | src/store/auth.ts:40-42 | An empty patch changes nothing, and applying a patch twice is the same as applying it once. |
| Auth.SetFirstLogin | src/store/auth.ts:43-45 | Only the first-login flag changes, and it takes the given value. |
| Auth.Logout | src/store/auth.ts:46-56 | The token, email, username, tenant fields and AMUI token become "", and the user is dropped. The base URL and the first-login flag are kept. |
| Auth.NotLoggedInInitiallyOrAfterLogout | src/store/auth.ts:25-56 | Nobody is logged in in the initial state or after `logout`. Logout is idempotent and clears everything except the base URL and the first-login flag. |
| BaseService.Interpolate | src/services/BaseService.ts:15 | A missing value prints as "undefined" in the template literal. |
| BaseService.NonSaasBaseUrl | src/services/BaseService.ts:14-15 | Outside the SaaS build, the base URL is the injected URL plus "/api" when that URL is non-empty, and otherwise the build-time URL plus "/api". |
| BaseService.SaasBaseUrl | src/services/BaseService.ts:30-34 | If the `backend` parameter starts with "https", the URL is backend + "/api". If it is non-empty but does not, the URL is "https://" + backend + "/api", even for "http://…". Without the parameter, the stored URL is kept. |
| BaseService.TenantConfigPatch | src/services/BaseService.ts:12-45 | Outside the SaaS build the patch carries the base URL only. In the SaaS build it carries the base URL, the token parameter or the old token, and the tenant fields defaulting to "". |
| BaseService.SetupTenantConfig | src/services/BaseService.ts:12-45 | Outside the SaaS build, only the base URL changes. In the SaaS build, the token parameter (even "") replaces the token and its absence keeps it, and the tenant fields default to "". Email, username, user and the first-login flag never change. |
| BaseService.AuthorizationHeader | src/services/BaseService.ts:49-57 | The header is present exactly when the token is non-empty, and its value is "Bearer " followed by the token. |
| BaseService.NoHeaderAfterLogout | src/services/BaseService.ts:50-54 | After `logout` no request carries an Authorization header. |

## Findings

| source | as written | input that shows it | evidently intended | confidence | as-written member | corrected member |
|---|---|---|---|---|---|---|
| src/pages/users/UsersPage.tsx:375-379 | `groupsMap` is a plain `{}`, and `groupsMap[g]` also finds the properties every object inherits, which are truthy | users = [alice with groups ["constructor"]], no groups at all, nothing selected: alice is listed as a group member | only users having a group among the filtered group rows are listed | not executed; medium (follows from JavaScript's property lookup) | UsersPage.FilteredGroupUsersAsWritten | UsersPage.FilteredGroupUsers |

The counterexample is the lemma `UsersPage.InheritedNameLeaks`.

## Left out

- Rendering (JSX, antd tags, tables, modals, notifications), React hooks, routing and i18n. This includes `renderNodeHealth`, the login page and the dashboard page, which carry no logic of their own.
- All HTTP work: the actual requests, the axios instance and its defaults, the response interceptor's 401 logout and redirect (src/services/BaseService.ts:59-73), the request sequence of `confirmDeleteRange`, and `truncateQueryParamsFromCurrentUrl`. Requests appear only as their possible answers.
- Floating-point work: the `toFixed` value text of `getFormattedData`, the downtime computation, and `getTimeMinHrs`.
- Table sorting, which uses `localeCompare` comparators.
- The `filteredNetworks`, relay, gateway, egress and client lists of the pages, which are other searches of the same shape.
- The stub `confirmRemoveRelayed`.
- NodeUtils.ConnectivityStatus: check-in times are whole seconds and the clock is an integer millisecond count. A fractional `lastcheckin` and floating-point rounding of `Date.now() / 1000` are not modelled.
- NodeUtils.ExtendedNode: the host-details lookup is by own key only. A host id naming an inherited `Object.prototype` property is not modelled.
- HostsPage.FilteredHosts: `toLowerCase` is modelled on ASCII letters only, because Unicode case mapping is not modelled.
- AclEditor.NetworkNodes: `toLowerCase` is modelled on ASCII letters only, because Unicode case mapping is not modelled. An address "É" searched with "é" is listed by the page but not by the model.
- UsersPage.FilteredUsers: `toLowerCase` is modelled on ASCII letters only. `trim` is modelled with the full ECMAScript whitespace set.
- UsersPage.FilteredGroups: `toLowerCase` is modelled on ASCII letters only.
- AclEditor.HasAclsBeenEdited: `JSON.stringify` equality is modelled as map equality, so key-insertion order is ignored.
- Auth.SetStore: a patch key that is present with the value `undefined` is not modelled. The login page (outside this model) can pass `jwt: undefined` or `baseUrl: undefined`, which overwrites the stored value; the model's `None` keeps it instead.
- NetworkMetrics.ByteUnit: the count is taken as an integer. The source's `number` can be fractional, and fractional counts are not modelled.
- NetworkMetrics.LatencyColor: the latency is taken as an integer. Fractional latencies, and a missing latency (which gets the default colour), are not modelled.
- Auth.IsLoggedIn: `isValidJwt` is not part of this model and is taken as an arbitrary predicate.
- `NULL_HOST` is not part of this model and is taken as an arbitrary field map.
- Values of other JavaScript types in the injected backend URL are not modelled: it is treated as a string or absent.

=== FILE: acl_editor.dfy ===
/** The access-control matrix editor of the network details page: a working
    copy of the node-to-node matrix that the user edits, and a snapshot of
    the matrix as last loaded from or confirmed by the server. */
module AclEditor {
  import opened Nullish
  import opened Models
  import Seqs
  import Text

  /** The matrix from node id to node id to level. */
  type AclMatrix = map<string, map<string, int>>

  /** No relation between the two nodes. */
  const Unset: int := 0
  /** Traffic between the two nodes is denied. */
  const Deny: int := 1
  /** Traffic between the two nodes is allowed. */
  const Allow: int := 2

  /** The page state: `acls` is the working copy, `originalAcls` the
      snapshot it is compared against. */
  datatype Editor = Editor(acls: AclMatrix, originalAcls: AclMatrix)

  /** The page before anything is loaded: both matrices are `{}`, so every
      cell reads as unset and there is nothing to reset or submit. */
  function Initial(): (e: Editor)
    ensures forall a, b :: Level(e.acls, a, b) == Unset && Level(e.originalAcls, a, b) == Unset
    ensures EditActionsDisabled(e)
  {
    Editor(map[], map[])
  }

  /** `m?.[a]?.[b] ?? 0`: the level of a cell, 0 where there is none. */
  function Level(m: AclMatrix, a: string, b: string): (l: int)
    ensures a in m && b in m[a] ==> l == m[a][b]
    ensures !(a in m && b in m[a]) ==> l == Unset
  {
    if a in m && b in m[a] then m[a][b] else Unset
  }

  /** Every present cell has its mirror cell, holding the same level. */
  predicate Symmetric(m: AclMatrix) {
    forall a, b :: a in m && b in m[a] ==> b in m && a in m[b] && m[b][a] == m[a][b]
  }

  /** Only the cells (a, b) and (b, a) may differ between `m` and `m'`;
      rows and the other cells are the same. */
  predicate SameOutside(m: AclMatrix, m': AclMatrix, a: string, b: string) {
    && m'.Keys == m.Keys
    && (forall x, y :: x in m && y in m[x] && !(x == a && y == b) && !(x == b && y == a)
          ==> x in m' && y in m'[x] && m'[x][y] == m[x][y])
    && (forall x, y :: x in m' && y in m'[x] && !(x == a && y == b) && !(x == b && y == a)
          ==> x in m && y in m[x])
  }

  /** `newAcls[a][b] = v; newAcls[b][a] = v;` on a copy of `m`. Both rows
      must exist: writing into a missing row throws. */
  function SetPair(m: AclMatrix, a: string, b: string, v: int): (r: AclMatrix)
    requires a in m && b in m
    ensures a in r && b in r
    ensures b in r[a] && r[a][b] == v
    ensures a in r[b] && r[b][a] == v
    ensures SameOutside(m, r, a, b)
  {
    var m1 := m[a := m[a][b := v]];
    m1[b := m1[b][a := v]]
  }

  /** The result of a click on a cell. `NoButton`: the cell shows a dash,
      so there is nothing to click and nothing runs. `Throws(missingRow)`:
      the mirror row `missingRow` is absent, and writing into it throws a
      TypeError that the handler does not catch; this stands for that
      error, not for an editor left as it was. */
  datatype ToggleOutcome = Toggled(editor: Editor) | NoButton | Throws(missingRow: string)

  /** A click on the cell of row `a`, column `b`: a deny cell becomes allow
      and an allow cell becomes deny, in both directions at once. The
      snapshot is not touched. The level read here is the one the table
      shows for a listed node (see `NetworkAclsLevel`). */
  function Toggle(e: Editor, a: string, b: string): (r: ToggleOutcome)
    ensures r.NoButton? <==> Level(e.acls, a, b) !in {Deny, Allow}
    ensures r.Throws? <==> Level(e.acls, a, b) in {Deny, Allow} && b !in e.acls
    ensures r.Throws? ==> r.missingRow == b
    ensures r.Toggled? ==>
      && r.editor.originalAcls == e.originalAcls
      && Level(r.editor.acls, a, b) == Level(r.editor.acls, b, a) == 3 - Level(e.acls, a, b)
      && SameOutside(e.acls, r.editor.acls, a, b)
  {
    var level := Level(e.acls, a, b);
    if level != Deny && level != Allow then NoButton
    else if b !in e.acls then Throws(b)
    else Toggled(e.(acls := SetPair(e.acls, a, b, if level == Deny then Allow else Deny)))
  }

  /** On a symmetric matrix every deny or allow cell can be toggled, and the
      result is symmetric again. */
  lemma ToggleKeepsSymmetry(e: Editor, a: string, b: string)
    requires Symmetric(e.acls)
    requires Level(e.acls, a, b) in {Deny, Allow}
    ensures Toggle(e, a, b).Toggled?
    ensures Symmetric(Toggle(e, a, b).editor.acls)
  {
  }

  /** Writing a pair and then writing back the old level of a mirrored pair
      restores the matrix. */
  lemma SetPairTwice(m: AclMatrix, a: string, b: string, v: int)
    requires a in m && b in m && b in m[a] && a in m[b] && m[b][a] == m[a][b]
    ensures SetPair(SetPair(m, a, b, v), a, b, m[a][b]) == m
  {
    var l := m[a][b];
    if a == b {
      var row := m[a][a := v];
      assert row[a := v] == row;
      var m1 := SetPair(m, a, a, v);
      assert m1 == m[a := row];
      assert row[a := l][a := l] == row[a := l] == m[a];
      assert SetPair(m1, a, a, l) == m;
    } else {
      var m1 := SetPair(m, a, b, v);
      assert m1 == m[a := m[a][b := v]][b := m[b][a := v]];
      assert m1[a][b := l] == m[a];
      assert m1[b][a := l] == m[b];
    }
  }

  /** Toggling the same cell twice restores the editor. */
  lemma ToggleTwiceRestores(e: Editor, a: string, b: string)
    requires Symmetric(e.acls)
    requires Level(e.acls, a, b) in {Deny, Allow}
    ensures Toggle(e, a, b).Toggled?
    ensures Toggle(Toggle(e, a, b).editor, a, b) == Toggled(e)
  {
    var m := e.acls;
    var l := m[a][b];
    var w := if l == Deny then Allow else Deny;
    var e1 := Toggle(e, a, b).editor;
    assert e1.acls == SetPair(m, a, b, w);
    assert Level(e1.acls, a, b) == w;
    assert Toggle(e1, a, b) == Toggled(e1.(acls := SetPair(e1.acls, a, b, l)));
    SetPairTwice(m, a, b, w);
  }

  /** Every existing cell set to `v`; no row or cell is added or removed. */
  function SetAll(m: AclMatrix, v: int): (r: AclMatrix)
    ensures r.Keys == m.Keys
    ensures forall a :: a in m ==> r[a].Keys == m[a].Keys
    ensures forall a, b :: a in r && b in r[a] ==> r[a][b] == v
  {
    map a | a in m :: map b | b in m[a] :: v
  }

  /** "Allow All": every existing cell of the working copy becomes allow. */
  function AllowAll(e: Editor): (r: Editor)
    ensures r.originalAcls == e.originalAcls
    ensures r.acls.Keys == e.acls.Keys
    ensures forall a :: a in e.acls ==> r.acls[a].Keys == e.acls[a].Keys
    ensures forall a, b :: a in e.acls && b in e.acls[a] ==> Level(r.acls, a, b) == Allow
  {
    e.(acls := SetAll(e.acls, Allow))
  }

  /** "Block All": every existing cell of the working copy becomes deny. */
  function BlockAll(e: Editor): (r: Editor)
    ensures r.originalAcls == e.originalAcls
    ensures r.acls.Keys == e.acls.Keys
    ensures forall a :: a in e.acls ==> r.acls[a].Keys == e.acls[a].Keys
    ensures forall a, b :: a in e.acls && b in e.acls[a] ==> Level(r.acls, a, b) == Deny
  {
    e.(acls := SetAll(e.acls, Deny))
  }

  /** Setting every cell keeps a symmetric matrix symmetric. */
  lemma SetAllKeepsSymmetry(m: AclMatrix, v: int)
    requires Symmetric(m)
    ensures Symmetric(SetAll(m, v))
  {
  }

  /** "Reset": the working copy becomes the snapshot again. */
  function Reset(e: Editor): (r: Editor)
    ensures r.acls == r.originalAcls == e.originalAcls
  {
    e.(acls := e.originalAcls)
  }

  /** "Submit Changes": the working copy is sent to the server for network
      `networkId`, and the matrix the server answers with (`response`,
      `None` when the request fails) replaces both copies. Without a network
      id, or on failure, the editor is left as it was. Loading the matrix
      when the page opens is the same transition, with the answer of the
      fetch request. */
  function Submit(e: Editor, networkId: string, response: Option<AclMatrix>): (r: Editor)
    ensures networkId == "" || response.None? ==> r == e
    ensures networkId != "" && response.Some? ==> r.acls == r.originalAcls == response.value
  {
    if networkId == "" then e
    else match response
      case None => e
      case Some(m) => Editor(m, m)
  }

  /** Cell by cell, `m` and `n` hold the same rows, the same cells and the
      same levels. */
  predicate SameCells(m: AclMatrix, n: AclMatrix) {
    && m.Keys == n.Keys
    && (forall a :: a in m ==> m[a].Keys == n[a].Keys)
    && (forall a, b :: a in m && b in m[a] ==> m[a][b] == n[a][b])
  }

  /** The page's `hasAclsBeenEdited` flag. Despite its name it holds when the
      working copy EQUALS the snapshot, i.e. when there is nothing to
      reset or submit. */
  function HasAclsBeenEdited(e: Editor): (same: bool)
    ensures same <==> SameCells(e.acls, e.originalAcls)
  {
    if e.acls == e.originalAcls then true
    else
      SameCellsIsEquality(e.acls, e.originalAcls);
      false
  }

  /** Equal cells make equal matrices. */
  lemma SameCellsIsEquality(m: AclMatrix, n: AclMatrix)
    ensures SameCells(m, n) <==> m == n
  {
    if SameCells(m, n) {
      forall a | a in m ensures m[a] == n[a] {
      }
    }
  }

  /** The Reset and the Submit button are both disabled when the flag
      holds, that is, when there is nothing to reset or submit. */
  function EditActionsDisabled(e: Editor): (disabled: bool)
    ensures disabled <==> e.acls == e.originalAcls
  {
    SameCellsIsEquality(e.acls, e.originalAcls);
    HasAclsBeenEdited(e)
  }

  /** After a reset or a successful load or submit there is nothing
      pending; one toggle of a clean editor enables Reset and Submit. */
  lemma PendingEditsLifecycle(e: Editor, networkId: string, response: Option<AclMatrix>, a: string, b: string)
    ensures EditActionsDisabled(Reset(e))
    ensures networkId != "" && response.Some? ==> EditActionsDisabled(Submit(e, networkId, response))
    ensures e.acls == e.originalAcls && Toggle(e, a, b).Toggled? ==> !EditActionsDisabled(Toggle(e, a, b).editor)
  {
  }

  /** Allow All, then Block All, then Reset gives back the snapshot. */
  lemma AllowBlockResetRestores(e: Editor)
    ensures Reset(BlockAll(AllowAll(e))) == Editor(e.originalAcls, e.originalAcls)
  {
  }

  /** The nodes of network `networkId` whose lower-cased address includes
      the lower-cased host search, in store order. */
  function NetworkNodes(nodes: seq<Node>, networkId: string, searchHost: string): (r: seq<Node>)
    ensures forall n :: n in r <==>
      n in nodes && n.network == networkId && Text.Includes(Text.Lower(n.address), Text.Lower(searchHost))
  {
    Seqs.Filter(Seqs.Filter(nodes, InNetwork(networkId)), AddressMatches(searchHost))
  }

  /** The first filter: the node belongs to the network. */
  function InNetwork(networkId: string): Node -> bool {
    (n: Node) => n.network == networkId
  }

  /** The second filter: the lower-cased address includes the lower-cased
      host search. */
  function AddressMatches(searchHost: string): Node -> bool {
    (n: Node) => Text.Includes(Text.Lower(n.address), Text.Lower(searchHost))
  }

  /** The two filters keep the store order and keep exactly as many nodes
      as pass both tests, and with an empty host search they keep every
      node of the network. */
  lemma NetworkNodesOrderAndEmpty(nodes: seq<Node>, networkId: string, searchHost: string)
    ensures Seqs.SubsequenceOf(NetworkNodes(nodes, networkId, searchHost), nodes)
    ensures |NetworkNodes(nodes, networkId, searchHost)|
         == Seqs.CountWhere(nodes, n => InNetwork(networkId)(n) && AddressMatches(searchHost)(n))
    ensures searchHost == "" ==> NetworkNodes(nodes, networkId, searchHost) == Seqs.Filter(nodes, InNetwork(networkId))
  {
    var inNetwork := Seqs.Filter(nodes, InNetwork(networkId));
    Seqs.FilterFilter(nodes, InNetwork(networkId), AddressMatches(searchHost));
    Seqs.CountIsFilterLength(nodes, n => InNetwork(networkId)(n) && AddressMatches(searchHost)(n));
    Seqs.FilterIsSubsequence(nodes, n => InNetwork(networkId)(n) && AddressMatches(searchHost)(n));
    if searchHost == "" {
      forall n | n in inNetwork ensures AddressMatches(searchHost)(n) {
        Text.IncludesEmpty(Text.Lower(n.address));
      }
      Seqs.FilterAll(inNetwork, AddressMatches(searchHost));
    }
  }

  /** The rows of `acls` that belong to the listed network nodes, each row
      unchanged. */
  function NetworkAcls(acls: AclMatrix, networkNodes: seq<Node>): (r: AclMatrix)
    ensures forall id :: id in r <==> id in acls && exists n :: n in networkNodes && n.id == id
    ensures forall id :: id in r ==> r[id] == acls[id]
  {
    var ids := set n | n in networkNodes :: n.id;
    map id | id in acls && id in ids :: acls[id]
  }

  /** The ACL table reads each cell from `networkAcls`, and its rows are
      always listed network nodes. For such a row the level shown is the
      level of the working copy, so the button a cell offers is the one
      `Toggle` decides on; rows of other nodes show no level at all. */
  lemma NetworkAclsLevel(acls: AclMatrix, networkNodes: seq<Node>, a: string, b: string)
    ensures (exists n :: n in networkNodes && n.id == a) ==>
      Level(NetworkAcls(acls, networkNodes), a, b) == Level(acls, a, b)
    ensures (forall n :: n in networkNodes ==> n.id != a) ==>
      Level(NetworkAcls(acls, networkNodes), a, b) == Unset
  {
  }
}

=== FILE: auth.dfy ===
/** The authentication slice of the dashboard's global store: the session
    token and tenant fields, the signed-in user, and their transitions. */
module Auth {
  import opened Nullish
  import opened Models

  /** The slice's data fields. */
  datatype AuthState = AuthState(
    jwt: string,
    email: string,
    username: string,
    tenantId: string,
    tenantName: string,
    baseUrl: string,
    amuiAuthToken: string,
    isFirstLogin: bool,
    user: Option<User>)

  /** The fields a `setStore` call may carry; `None` is a field the call
      leaves out. */
  datatype StorePatch = StorePatch(
    jwt: Option<string>,
    email: Option<string>,
    username: Option<string>,
    tenantId: Option<string>,
    tenantName: Option<string>,
    baseUrl: Option<string>,
    amuiAuthToken: Option<string>,
    user: Option<User>)

  /** A patch carrying no field. */
  const EmptyPatch: StorePatch := StorePatch(None, None, None, None, None, None, None, None)

  /** The slice when the store is created: it is already in the logged-out
      shape, with no backend URL yet and the first-login flag raised. */
  function Initial(): (s: AuthState)
    ensures Logout(s) == s
    ensures s.baseUrl == "" && s.isFirstLogin
  {
    AuthState("", "", "", "", "", "", "", true, None)
  }

  /** Signed in: a non-empty token that `isValidJwt` accepts and, outside the
      SaaS build, a loaded user. */
  function IsLoggedIn(s: AuthState, isSaasBuild: bool, isValidJwt: string -> bool): (b: bool)
    ensures b ==> s.jwt != "" && isValidJwt(s.jwt)
    ensures b ==> isSaasBuild || s.user.Some?
    ensures s.jwt != "" && isValidJwt(s.jwt) && (isSaasBuild || s.user.Some?) ==> b
  {
    s.jwt != "" && isValidJwt(s.jwt) && (if !isSaasBuild then s.user.Some? else true)
  }

  /** `setStore(config)`: every field present in the patch is overwritten,
      every other field keeps its value. */
  function SetStore(s: AuthState, p: StorePatch): (r: AuthState)
    ensures r.jwt == Coalesce(p.jwt, s.jwt) && r.email == Coalesce(p.email, s.email)
    ensures r.username == Coalesce(p.username, s.username)
    ensures r.tenantId == Coalesce(p.tenantId, s.tenantId)
    ensures r.tenantName == Coalesce(p.tenantName, s.tenantName)
    ensures r.baseUrl == Coalesce(p.baseUrl, s.baseUrl)
    ensures r.amuiAuthToken == Coalesce(p.amuiAuthToken, s.amuiAuthToken)
    ensures r.isFirstLogin == s.isFirstLogin
    ensures p.user.Some? ==> r.user == p.user
    ensures p.user.None? ==> r.user == s.user
  {
    AuthState(
      Coalesce(p.jwt, s.jwt), Coalesce(p.email, s.email), Coalesce(p.username, s.username),
      Coalesce(p.tenantId, s.tenantId), Coalesce(p.tenantName, s.tenantName),
      Coalesce(p.baseUrl, s.baseUrl), Coalesce(p.amuiAuthToken, s.amuiAuthToken),
      s.isFirstLogin, if p.user.Some? then p.user else s.user)
  }

  /** An empty patch changes nothing, and applying a patch twice is the same
      as applying it once. */
  lemma SetStoreLaws(s: AuthState, p: StorePatch)
    ensures SetStore(s, EmptyPatch) == s
    ensures SetStore(SetStore(s, p), p) == SetStore(s, p)
  {
  }

  /** `setFirstLogin(val)`: only the first-login flag changes. */
  function SetFirstLogin(s: AuthState, val: bool): (r: AuthState)
    ensures r.isFirstLogin == val
    ensures r.(isFirstLogin := s.isFirstLogin) == s
  {
    s.(isFirstLogin := val)
  }

  /** `logout()`: the token, identity and tenant fields are cleared and the
      user dropped; the backend URL and the first-login flag are kept. */
  function Logout(s: AuthState): (r: AuthState)
    ensures r.jwt == "" && r.email == "" && r.username == ""
    ensures r.tenantId == "" && r.tenantName == "" && r.amuiAuthToken == ""
    ensures r.user.None?
    ensures r.baseUrl == s.baseUrl && r.isFirstLogin == s.isFirstLogin
  {
    s.(jwt := "", email := "", username := "", tenantId := "", tenantName := "",
       amuiAuthToken := "", user := None)
  }

  /** Nobody is signed in at the start or after logging out, and logging
      out twice is logging out once. */
  lemma NotLoggedInInitiallyOrAfterLogout(s: AuthState, isSaasBuild: bool, isValidJwt: string -> bool)
    ensures !IsLoggedIn(Initial(), isSaasBuild, isValidJwt)
    ensures !IsLoggedIn(Logout(s), isSaasBuild, isValidJwt)
    ensures Logout(Logout(s)) == Logout(s)
    ensures Logout(s) == Logout(Initial()).(baseUrl := s.baseUrl, isFirstLogin := s.isFirstLogin)
  {
  }
}

=== FILE: base_service.dfy ===
/** The HTTP client's set-up decisions: which backend URL to talk to, which
    session and tenant fields to store, and when to send a bearer token. */
module BaseService {
  import opened Nullish
  import opened Auth
  import Text

  /** The URL query parameters the SaaS build reads; `None` is a parameter
      missing from the URL. */
  datatype QueryParams = QueryParams(
    backend: Option<string>,
    token: Option<string>,
    sToken: Option<string>,
    tenantId: Option<string>,
    tenantName: Option<string>)

  /** A string value in JavaScript's truthiness: present and non-empty. */
  predicate Truthy(v: Option<string>) {
    v.Some? && v.value != ""
  }

  /** `${v}` in a template literal: an absent value prints "undefined". */
  function Interpolate(v: Option<string>): (r: string)
    ensures v.Some? ==> r == v.value
    ensures v.None? ==> r == "undefined"
  {
    match v
    case Some(x) => x
    case None => "undefined"
  }

  /** The base URL outside the SaaS build: the URL the hosting page
      injects when it is set, otherwise the build-time base URL, each with
      "/api" appended. */
  function NonSaasBaseUrl(dynamicBaseUrl: Option<string>, envBaseUrl: Option<string>): (r: string)
    ensures Truthy(dynamicBaseUrl) ==> r == dynamicBaseUrl.value + "/api"
    ensures !Truthy(dynamicBaseUrl) ==> r == Interpolate(envBaseUrl) + "/api"
  {
    if Truthy(dynamicBaseUrl) then dynamicBaseUrl.value + "/api"
    else Interpolate(envBaseUrl) + "/api"
  }

  /** The base URL in the SaaS build: from the `backend` parameter, forced
      to https unless it already starts with "https"; without the parameter
      the stored base URL is kept. */
  function SaasBaseUrl(backend: Option<string>, storedBaseUrl: string): (r: string)
    ensures !Truthy(backend) ==> r == storedBaseUrl
    ensures Truthy(backend) && Text.StartsWith(backend.value, "https") ==> r == backend.value + "/api"
    ensures Truthy(backend) && !Text.StartsWith(backend.value, "https") ==> r == "https://" + backend.value + "/api"
    ensures Truthy(backend) ==> Text.StartsWith(r, "https") && |r| >= 4 && r[|r| - 4..] == "/api"
  {
    if Truthy(backend) then
      if Text.StartsWith(backend.value, "https") then backend.value + "/api"
      else "https://" + backend.value + "/api"
    else storedBaseUrl
  }

  /** The `setStore` patch `setupTenantConfig` issues. */
  function TenantConfigPatch(
    s: AuthState, isSaasBuild: bool, dynamicBaseUrl: Option<string>,
    envBaseUrl: Option<string>, q: QueryParams): (p: StorePatch)
    ensures !isSaasBuild ==> p == EmptyPatch.(baseUrl := Some(NonSaasBaseUrl(dynamicBaseUrl, envBaseUrl)))
    ensures isSaasBuild ==>
      && p.baseUrl == Some(SaasBaseUrl(q.backend, s.baseUrl))
      && p.jwt == Some(Coalesce(q.token, s.jwt))
      && p.tenantId == Some(Coalesce(q.tenantId, ""))
      && p.tenantName == Some(Coalesce(q.tenantName, ""))
      && p.amuiAuthToken == Some(Coalesce(q.sToken, ""))
      && p.email.None? && p.username.None? && p.user.None?
  {
    if !isSaasBuild then
      EmptyPatch.(baseUrl := Some(NonSaasBaseUrl(dynamicBaseUrl, envBaseUrl)))
    else
      EmptyPatch.(
        baseUrl := Some(SaasBaseUrl(q.backend, s.baseUrl)),
        jwt := Some(Coalesce(q.token, s.jwt)),
        tenantId := Some(Coalesce(q.tenantId, "")),
        tenantName := Some(Coalesce(q.tenantName, "")),
        amuiAuthToken := Some(Coalesce(q.sToken, "")))
  }

  /** `setupTenantConfig()` on the store: outside the SaaS build only the
      base URL changes; in the SaaS build the token is taken from the URL
      whenever the parameter is there (even empty), and the tenant fields
      default to "". */
  function SetupTenantConfig(
    s: AuthState, isSaasBuild: bool, dynamicBaseUrl: Option<string>,
    envBaseUrl: Option<string>, q: QueryParams): (r: AuthState)
    ensures !isSaasBuild ==> r == s.(baseUrl := NonSaasBaseUrl(dynamicBaseUrl, envBaseUrl))
    ensures isSaasBuild ==> r.baseUrl == SaasBaseUrl(q.backend, s.baseUrl)
    ensures isSaasBuild && q.token.Some? ==> r.jwt == q.token.value
    ensures isSaasBuild && q.token.None? ==> r.jwt == s.jwt
    ensures isSaasBuild ==>
      r.tenantId == Coalesce(q.tenantId, "") && r.tenantName == Coalesce(q.tenantName, "")
      && r.amuiAuthToken == Coalesce(q.sToken, "")
    ensures r.email == s.email && r.username == s.username && r.user == s.user
      && r.isFirstLogin == s.isFirstLogin
  {
    SetStore(s, TenantConfigPatch(s, isSaasBuild, dynamicBaseUrl, envBaseUrl, q))
  }

  /** The request interceptor: `Authorization: Bearer <jwt>` is added
      exactly when the stored token is non-empty. */
  function AuthorizationHeader(jwt: string): (h: Option<string>)
    ensures h.Some? <==> jwt != ""
    ensures h.Some? ==> |h.value| == 7 + |jwt| && h.value[..7] == "Bearer " && h.value[7..] == jwt
  {
    if jwt != "" then Some("Bearer " + jwt) else None
  }

  /** After logging out no request carries a token. */
  lemma NoHeaderAfterLogout(s: AuthState)
    ensures AuthorizationHeader(Logout(s).jwt).None?
  {
  }
}

=== FILE: host_health.dfy ===
/** A host's health: the worst connectivity among its nodes, with nodes
    of unknown connectivity left out. */
module HostHealth {
  import opened Nullish
  import opened Models
  import opened NodeUtils
  import Seqs

  /** `Number.MAX_SAFE_INTEGER`, the start value of the running minimum. */
  const MaxSafeInteger: int := 0x1F_FFFF_FFFF_FFFF

  /** The numeric rank of a level: error 1, warning 2, healthy 3, and 0 for
      unknown. A lower rank is a worse health. */
  function Rank(c: Connectivity): (k: int)
    ensures 0 <= k <= 3
    ensures k == 0 <==> c == Unknown
    ensures c == Error <==> k == 1
    ensures c == Healthy <==> k == 3
  {
    match c
    case Healthy => 3
    case Warning => 2
    case Error => 1
    case Unknown => 0
  }

  /** The level a running minimum denotes; anything other than 1, 2 or 3
      (the untouched start value included) reads as unknown. */
  function LevelOfRank(k: int): (c: Connectivity)
    ensures 1 <= k <= 3 ==> Rank(c) == k
    ensures !(1 <= k <= 3) ==> c == Unknown
  {
    if k == 1 then Error
    else if k == 2 then Warning
    else if k == 3 then Healthy
    else Unknown
  }

  /** `xs.forEach(h => worst = Math.min(worst, h))` from the start value
      `worst`. */
  function FoldMin(worst: int, xs: seq<int>): (r: int)
    ensures r <= worst
    ensures forall x :: x in xs ==> r <= x
    ensures r == worst || r in xs
    decreases |xs|
  {
    if |xs| == 0 then worst
    else
      assert forall x :: x in xs ==> x == xs[0] || x in xs[1..];
      FoldMin(if xs[0] < worst then xs[0] else worst, xs[1..])
  }

  /** The ranks of the host's nodes, with the unknown ones (rank 0) dropped,
      in the order of `nodes`. */
  function HealthRanks(hostId: string, nodes: seq<Node>, nowMs: int): (ks: seq<int>)
    ensures forall k :: k in ks ==> 1 <= k <= 3
  {
    var own := Seqs.Filter(nodes, (n: Node) => n.hostid == hostId);
    var ranks := Seqs.Map(own, (n: Node) => Rank(NodeConnectivityStatus(n, nowMs)));
    Seqs.Filter(ranks, (h: int) => h != 0)
  }

  /** Rank `k` is among the host's ranks exactly when some node of the host
      has the level of that rank. */
  lemma HealthRanksMembers(hostId: string, nodes: seq<Node>, nowMs: int, c: Connectivity)
    requires c != Unknown
    ensures Rank(c) in HealthRanks(hostId, nodes, nowMs) <==> HasNodeWith(hostId, nodes, nowMs, c)
  {
    var own := Seqs.Filter(nodes, (n: Node) => n.hostid == hostId);
    var ranks := Seqs.Map(own, (n: Node) => Rank(NodeConnectivityStatus(n, nowMs)));
    if HasNodeWith(hostId, nodes, nowMs, c) {
      var n :| n in nodes && n.hostid == hostId && NodeConnectivityStatus(n, nowMs) == c;
      assert n in own;
      var i :| 0 <= i < |own| && own[i] == n;
      assert ranks[i] == Rank(c);
    }
    if Rank(c) in HealthRanks(hostId, nodes, nowMs) {
      assert Rank(c) in ranks;
      var i :| 0 <= i < |ranks| && ranks[i] == Rank(c);
      assert own[i] in own;
    }
  }

  /** Some node of host `hostId` has connectivity `c`. */
  predicate HasNodeWith(hostId: string, nodes: seq<Node>, nowMs: int, c: Connectivity) {
    exists n :: n in nodes && n.hostid == hostId && NodeConnectivityStatus(n, nowMs) == c
  }

  /** The worst level among the host's nodes, unknown ones left out; the
      reference reading of host health. */
  function WorstHealth(hostId: string, nodes: seq<Node>, nowMs: int): Connectivity {
    if HasNodeWith(hostId, nodes, nowMs, Error) then Error
    else if HasNodeWith(hostId, nodes, nowMs, Warning) then Warning
    else if HasNodeWith(hostId, nodes, nowMs, Healthy) then Healthy
    else Unknown
  }

  /** What the health cell shows: either a status name (when not rendering)
      or a tag with its text and optional colour. */
  datatype HealthView = StatusName(name: string) | Tag(text: string, color: Option<string>)

  /** The rendering of a level, as a name or as a tag. */
  function ViewOf(c: Connectivity, shouldRender: bool): (v: HealthView)
    ensures shouldRender <==> v.Tag?
    ensures v.StatusName? ==> v.name in {"unknown", "error", "warning", "healthy"}
  {
    match c
    case Unknown => if shouldRender then Tag("Unknown", None) else StatusName("unknown")
    case Error => if shouldRender then Tag("Error", Some("error")) else StatusName("error")
    case Warning => if shouldRender then Tag("Warning", Some("warning")) else StatusName("warning")
    case Healthy => if shouldRender then Tag("Healthy", Some("success")) else StatusName("healthy")
  }

  /** Host health as the dashboard computes it: rank, drop unknowns, take
      the running minimum from `Number.MAX_SAFE_INTEGER`, read it back. */
  function GetHostHealth(hostId: string, nodes: seq<Node>, nowMs: int, shouldRender: bool): (v: HealthView)
    ensures v == ViewOf(WorstHealth(hostId, nodes, nowMs), shouldRender)
  {
    HostHealthIsWorst(hostId, nodes, nowMs);
    ViewOf(LevelOfRank(FoldMin(MaxSafeInteger, HealthRanks(hostId, nodes, nowMs))), shouldRender)
  }

  /** The running minimum picks out exactly the worst known level. */
  lemma HostHealthIsWorst(hostId: string, nodes: seq<Node>, nowMs: int)
    ensures LevelOfRank(FoldMin(MaxSafeInteger, HealthRanks(hostId, nodes, nowMs)))
         == WorstHealth(hostId, nodes, nowMs)
  {
    var ks := HealthRanks(hostId, nodes, nowMs);
    var w := FoldMin(MaxSafeInteger, ks);
    HealthRanksMembers(hostId, nodes, nowMs, Error);
    HealthRanksMembers(hostId, nodes, nowMs, Warning);
    HealthRanksMembers(hostId, nodes, nowMs, Healthy);
    if |ks| == 0 {
      assert w == MaxSafeInteger;
    }
  }

  /** With `shouldRender` false the result is one of the four names. */
  lemma StatusNameIsOneOfFour(hostId: string, nodes: seq<Node>, nowMs: int)
    ensures GetHostHealth(hostId, nodes, nowMs, false).StatusName?
    ensures GetHostHealth(hostId, nodes, nowMs, false).name in {"unknown", "error", "warning", "healthy"}
  {
  }

  /** The worst level is a level of one of the host's nodes, and no node of
      the host with a known level is worse than it; with no such node it is
      unknown. */
  lemma WorstIsMinimum(hostId: string, nodes: seq<Node>, nowMs: int)
    ensures var w := WorstHealth(hostId, nodes, nowMs);
      && (w == Unknown <==> forall n :: n in nodes && n.hostid == hostId ==> NodeConnectivityStatus(n, nowMs) == Unknown)
      && (w != Unknown ==> HasNodeWith(hostId, nodes, nowMs, w))
      && (forall n :: n in nodes && n.hostid == hostId && NodeConnectivityStatus(n, nowMs) != Unknown
            ==> Rank(w) <= Rank(NodeConnectivityStatus(n, nowMs)))
  {
  }

  /** Health depends only on which nodes are present, not on their order
      or repetition. */
  lemma OrderIndependent(hostId: string, nodes: seq<Node>, others: seq<Node>, nowMs: int, shouldRender: bool)
    requires forall n :: n in nodes <==> n in others
    ensures GetHostHealth(hostId, nodes, nowMs, shouldRender) == GetHostHealth(hostId, others, nowMs, shouldRender)
  {
  }

  /** Appending a node that is not a node of the host with level `c` does
      not change whether the host has a node with level `c`. */
  lemma HasNodeWithAppend(hostId: string, nodes: seq<Node>, n: Node, nowMs: int, c: Connectivity)
    requires n.hostid != hostId || NodeConnectivityStatus(n, nowMs) != c
    ensures HasNodeWith(hostId, nodes + [n], nowMs, c) == HasNodeWith(hostId, nodes, nowMs, c)
  {
    if HasNodeWith(hostId, nodes + [n], nowMs, c) {
      var m :| m in nodes + [n] && m.hostid == hostId && NodeConnectivityStatus(m, nowMs) == c;
      assert m in nodes;
    }
    if HasNodeWith(hostId, nodes, nowMs, c) {
      var m :| m in nodes && m.hostid == hostId && NodeConnectivityStatus(m, nowMs) == c;
      assert m in nodes + [n];
    }
  }

  /** Nodes of other hosts and nodes of unknown connectivity never change
      the result. */
  lemma IrrelevantNodeIgnored(hostId: string, nodes: seq<Node>, n: Node, nowMs: int, shouldRender: bool)
    requires n.hostid != hostId || NodeConnectivityStatus(n, nowMs) == Unknown
    ensures GetHostHealth(hostId, nodes + [n], nowMs, shouldRender) == GetHostHealth(hostId, nodes, nowMs, shouldRender)
  {
    HasNodeWithAppend(hostId, nodes, n, nowMs, Error);
    HasNodeWithAppend(hostId, nodes, n, nowMs, Warning);
    HasNodeWithAppend(hostId, nodes, n, nowMs, Healthy);
  }

  /** A host without nodes, or with only nodes of unknown connectivity,
      is unknown; one node in error makes the whole host in error. */
  lemma UnknownAndErrorCases(hostId: string, nodes: seq<Node>, nowMs: int)
    ensures (forall n :: n in nodes && n.hostid == hostId ==> n.lastcheckin.None?)
      ==> GetHostHealth(hostId, nodes, nowMs, false) == StatusName("unknown")
    ensures (exists n :: n in nodes && n.hostid == hostId && NodeConnectivityStatus(n, nowMs) == Error)
      ==> GetHostHealth(hostId, nodes, nowMs, false) == StatusName("error")
  {
  }

  /** A later check-in never gives a worse level: at a fixed time, the rank
      does not decrease as the check-in time grows. */
  lemma MonotoneInCheckIn(earlier: int, later: int, nowMs: int)
    requires earlier <= later
    ensures Rank(ConnectivityStatus(Some(earlier), nowMs)) <= Rank(ConnectivityStatus(Some(later), nowMs))
  {
  }
}

=== FILE: hosts_page.dfy ===
/** The hosts list: the name search and the health column. */
module HostsPage {
  import opened Models
  import opened NodeUtils
  import opened HostHealth
  import Seqs
  import Text

  /** The hosts whose lower-cased name includes the lower-cased search
      text, in list order. */
  function FilteredHosts(hosts: seq<Host>, searchText: string): (r: seq<Host>)
    ensures forall h :: h in r <==> h in hosts && Text.Includes(Text.Lower(h.name), Text.Lower(searchText))
    ensures |r| == Seqs.CountWhere(hosts, NameMatches(searchText))
  {
    Seqs.CountIsFilterLength(hosts, NameMatches(searchText));
    Seqs.Filter(hosts, NameMatches(searchText))
  }

  /** The search test of one host. */
  function NameMatches(searchText: string): Host -> bool {
    (h: Host) => Text.Includes(Text.Lower(h.name), Text.Lower(searchText))
  }

  /** The search ignores case: an upper-case search text finds the same
      hosts as its lower-case form. */
  lemma FilteredHostsIgnoresCase(hosts: seq<Host>, searchText: string)
    ensures FilteredHosts(hosts, Text.Lower(searchText)) == FilteredHosts(hosts, searchText)
  {
    Text.LowerIdempotent(searchText);
    Seqs.FilterCongruent(hosts, NameMatches(Text.Lower(searchText)), NameMatches(searchText));
  }

  /** The search keeps the list order, and an empty search keeps every
      host. */
  lemma FilteredHostsOrderAndEmpty(hosts: seq<Host>, searchText: string)
    ensures Seqs.SubsequenceOf(FilteredHosts(hosts, searchText), hosts)
    ensures searchText == "" ==> FilteredHosts(hosts, searchText) == hosts
  {
    var p := NameMatches(searchText);
    Seqs.FilterIsSubsequence(hosts, p);
    if searchText == "" {
      forall h | h in hosts ensures p(h) {
        Text.IncludesEmpty(Text.Lower(h.name));
      }
      Seqs.FilterAll(hosts, p);
    }
  }

  /** The "Health Status" cell of a host row, computed inline by the hosts
      page: collect the node ranks, then walk them keeping the minimum. It
      shows the same tag as the shared host-health helper. */
  method HealthColumn(host: Host, nodes: seq<Node>, nowMs: int) returns (tag: HealthView)
    ensures tag == GetHostHealth(host.id, nodes, nowMs, true)
    ensures tag == ViewOf(WorstHealth(host.id, nodes, nowMs), true)
  {
    var nodeHealths := HealthRanks(host.id, nodes, nowMs);
    var worstHealth := MaxSafeInteger;
    var i := 0;
    while i < |nodeHealths|
      invariant 0 <= i <= |nodeHealths|
      invariant FoldMin(worstHealth, nodeHealths[i..]) == FoldMin(MaxSafeInteger, nodeHealths)
    {
      assert nodeHealths[i..][1..] == nodeHealths[i + 1..];
      worstHealth := if nodeHealths[i] < worstHealth then nodeHealths[i] else worstHealth;
      i := i + 1;
    }
    assert nodeHealths[i..] == [];
    tag := ViewOf(LevelOfRank(worstHealth), true);
  }
}

=== FILE: models.dfy ===
/** The record shapes the dashboard receives from the control-plane API,
    reduced to the fields the modelled rules read. */
module Models {
  import opened Nullish

  /** A host's membership in one network. `lastcheckin` is a Unix time in
      seconds; it is `None` when the API sent `null` or left it out. */
  datatype Node = Node(
    id: string,
    hostid: string,
    network: string,
    address: string,
    lastcheckin: Option<int>)

  /** A machine taking part in one or more networks. */
  datatype Host = Host(id: string, name: string)

  /** A dashboard user; `groups` is absent when the API omits it. */
  datatype User = User(username: string, isadmin: bool, groups: Option<seq<string>>)
}

=== FILE: network_metrics.dfy ===
/** The two integer classifications of the network metrics table: the unit
    a byte count is shown in, and the colour of a latency. */
module NetworkMetrics {
  import opened Nullish

  /** Latency in milliseconds above which the value is shown as danger. */
  const LatencyDangerThreshold: int := 500
  /** Latency in milliseconds above which the value is shown as warning. */
  const LatencyWarningThreshold: int := 300

  /** The unit a byte count is displayed in; each threshold is strict. */
  function ByteUnit(data: int): (unit: string)
    ensures unit == "TiB" <==> data > 1_000_000_000_000
    ensures unit == "GiB" <==> 1_000_000_000 < data <= 1_000_000_000_000
    ensures unit == "MiB" <==> 1_000_000 < data <= 1_000_000_000
    ensures unit == "KiB" <==> 1000 < data <= 1_000_000
    ensures unit == "B" <==> data <= 1000
  {
    if data > 1_000_000_000_000 then "TiB"
    else if data > 1_000_000_000 then "GiB"
    else if data > 1_000_000 then "MiB"
    else if data > 1000 then "KiB"
    else "B"
  }

  /** Position of a unit in the scale B < KiB < MiB < GiB < TiB. */
  function UnitOrder(unit: string): nat {
    if unit == "TiB" then 4
    else if unit == "GiB" then 3
    else if unit == "MiB" then 2
    else if unit == "KiB" then 1
    else 0
  }

  /** A larger byte count is never shown in a smaller unit. */
  lemma ByteUnitMonotone(x: int, y: int)
    requires x <= y
    ensures UnitOrder(ByteUnit(x)) <= UnitOrder(ByteUnit(y))
  {
  }

  /** The colour of a latency cell: red above the danger threshold, yellow
      above the warning threshold, the default colour otherwise. */
  function LatencyColor(ms: int): (color: Option<string>)
    ensures color == Some("#D32029") <==> ms > LatencyDangerThreshold
    ensures color == Some("#D8BD14") <==> LatencyWarningThreshold < ms <= LatencyDangerThreshold
    ensures color == None <==> ms <= LatencyWarningThreshold
  {
    if ms > LatencyDangerThreshold then Some("#D32029")
    else if ms > LatencyWarningThreshold then Some("#D8BD14")
    else None
  }

  /** A higher latency is never shown in a milder colour. */
  lemma LatencyColorMonotone(x: int, y: int)
    requires x <= y
    ensures LatencyColor(x) == Some("#D32029") ==> LatencyColor(y) == Some("#D32029")
    ensures LatencyColor(y) == None ==> LatencyColor(x) == None
  {
  }
}

=== FILE: node_utils.dfy ===
/** Connectivity of a node, derived from the time of its last check-in,
    and the merge of a node with its host's common details. */
module NodeUtils {
  import opened Nullish
  import opened Models

  /** The four connectivity levels a node can be shown with. */
  datatype Connectivity = Unknown | Error | Warning | Healthy

  /** Seconds without a check-in after which a node is in error. */
  const ErrorThreshold: int := 1800
  /** Seconds without a check-in after which a node is in warning. */
  const WarningThreshold: int := 300

  /** At least `secs` seconds have passed between the check-in time `last`
      (seconds) and the current time `nowMs` (milliseconds): the exact
      reading of `nowMs / 1000 - last >= secs`. */
  predicate ElapsedAtLeast(last: int, nowMs: int, secs: int) {
    nowMs - 1000 * last >= 1000 * secs
  }

  /** Classifies a last check-in time against the current time `nowMs`,
      given in milliseconds as the clock reports it. */
  function ConnectivityStatus(lastCheckIn: Option<int>, nowMs: int): (s: Connectivity)
    ensures s == Unknown <==> lastCheckIn.None?
    ensures s == Error <==>
      lastCheckIn.Some? && ElapsedAtLeast(lastCheckIn.value, nowMs, ErrorThreshold)
    ensures s == Warning <==>
      lastCheckIn.Some? && ElapsedAtLeast(lastCheckIn.value, nowMs, WarningThreshold)
      && !ElapsedAtLeast(lastCheckIn.value, nowMs, ErrorThreshold)
    ensures s == Healthy <==>
      lastCheckIn.Some? && !ElapsedAtLeast(lastCheckIn.value, nowMs, WarningThreshold)
  {
    match lastCheckIn
    case None => Unknown
    case Some(t) =>
      if nowMs - 1000 * t >= 1000 * ErrorThreshold then Error
      else if nowMs - 1000 * t >= 1000 * WarningThreshold then Warning
      else Healthy
  }

  /** The boundaries, stated in whole seconds: both thresholds are
      inclusive, and a check-in in the future is healthy. */
  lemma ThresholdBoundaries(now: int, elapsed: int)
    ensures ConnectivityStatus(None, now * 1000) == Unknown
    ensures elapsed >= 1800 ==> ConnectivityStatus(Some(now - elapsed), now * 1000) == Error
    ensures 300 <= elapsed < 1800 ==> ConnectivityStatus(Some(now - elapsed), now * 1000) == Warning
    ensures elapsed < 300 ==> ConnectivityStatus(Some(now - elapsed), now * 1000) == Healthy
  {
  }

  /** The connectivity of a node is that of its last check-in time. */
  function NodeConnectivityStatus(n: Node, nowMs: int): (s: Connectivity)
    ensures s == Unknown <==> n.lastcheckin.None?
    ensures s == ConnectivityStatus(n.lastcheckin, nowMs)
  {
    ConnectivityStatus(n.lastcheckin, nowMs)
  }

  /** A node's fields merged with the common details of its host: every
      field of the node is kept unless the host details carry a field of the
      same name, which then wins. When the host id has no entry in
      `hostsCommonDetails`, the placeholder `nullHost` is merged instead.
      Objects are maps from field name to value. */
  function ExtendedNode<V>(
    node: map<string, V>,
    hostid: string,
    hostsCommonDetails: map<string, map<string, V>>,
    nullHost: map<string, V>): (r: map<string, V>)
    ensures var d := if hostid in hostsCommonDetails then hostsCommonDetails[hostid] else nullHost;
      && r.Keys == node.Keys + d.Keys
      && (forall k :: k in d ==> r[k] == d[k])
      && (forall k :: k in node && k !in d ==> r[k] == node[k])
  {
    var details := if hostid in hostsCommonDetails then hostsCommonDetails[hostid] else nullHost;
    node + details
  }
}

=== FILE: nullish.dfy ===
/** JavaScript's `null`/`undefined`, as the dashboard code meets them. */
module Nullish {

  /** A field or answer that may be missing. */
  datatype Option<T> = None | Some(value: T)

  /** `o ?? fallback`: the value when there is one, the fallback when not. */
  function Coalesce<T>(o: Option<T>, fallback: T): (r: T)
    ensures o.Some? ==> r == o.value
    ensures o.None? ==> r == fallback
  {
    if o.Some? then o.value else fallback
  }
}

=== FILE: seqs.dfy ===
/** Order-preserving filtering and mapping of sequences, the `Array.filter`
    and `Array.map` of the dashboard code. */
module Seqs {

  /** `r` is obtained from `s` by deleting elements, keeping the order. */
  predicate SubsequenceOf<T(==)>(r: seq<T>, s: seq<T>)
    decreases |s|
  {
    if |r| == 0 then true
    else if |s| == 0 then false
    else (r[0] == s[0] && SubsequenceOf(r[1..], s[1..])) || SubsequenceOf(r, s[1..])
  }

  /** `s.filter(p)`. */
  function Filter<T>(s: seq<T>, p: T -> bool): (r: seq<T>)
    ensures |r| <= |s|
    ensures forall x :: x in r ==> x in s && p(x)
    ensures forall x :: x in s && p(x) ==> x in r
    decreases |s|
  {
    if |s| == 0 then []
    else if p(s[0]) then [s[0]] + Filter(s[1..], p)
    else Filter(s[1..], p)
  }

  /** `s.map(f)`. */
  function Map<T, U>(s: seq<T>, f: T -> U): (r: seq<U>)
    ensures |r| == |s|
    ensures forall i :: 0 <= i < |s| ==> r[i] == f(s[i])
  {
    seq(|s|, i requires 0 <= i < |s| => f(s[i]))
  }

  /** A filter keeps the order of what it keeps. */
  lemma {:induction false} FilterIsSubsequence<T>(s: seq<T>, p: T -> bool)
    ensures SubsequenceOf(Filter(s, p), s)
    decreases |s|
  {
    if |s| > 0 {
      FilterIsSubsequence(s[1..], p);
      var r := Filter(s, p);
      if p(s[0]) {
        assert r[1..] == Filter(s[1..], p);
      } else if |r| > 0 {
        assert r == Filter(s[1..], p);
      }
    }
  }

  /** A filter whose predicate holds everywhere returns its input. */
  lemma {:induction false} FilterAll<T>(s: seq<T>, p: T -> bool)
    requires forall x :: x in s ==> p(x)
    ensures Filter(s, p) == s
    decreases |s|
  {
    if |s| > 0 {
      assert s[0] in s;
      assert forall x :: x in s[1..] ==> x in s;
      FilterAll(s[1..], p);
      assert [s[0]] + s[1..] == s;
    }
  }

  /** Two filters in a row are one filter by the conjunction. */
  lemma {:induction false} FilterFilter<T>(s: seq<T>, p: T -> bool, q: T -> bool)
    ensures Filter(Filter(s, p), q) == Filter(s, x => p(x) && q(x))
    decreases |s|
  {
    if |s| > 0 {
      FilterFilter(s[1..], p, q);
      if p(s[0]) {
        assert Filter(s, p)[1..] == Filter(s[1..], p);
      }
    }
  }

  /** Filtering with a predicate only looks at the elements it is applied to:
      two predicates that agree on `s` give the same result. */
  lemma {:induction false} FilterCongruent<T>(s: seq<T>, p: T -> bool, q: T -> bool)
    requires forall x :: x in s ==> p(x) == q(x)
    ensures Filter(s, p) == Filter(s, q)
    decreases |s|
  {
    if |s| > 0 {
      assert s[0] in s;
      assert forall x :: x in s[1..] ==> x in s;
      FilterCongruent(s[1..], p, q);
    }
  }

  /** Number of elements of `s` satisfying `p`, counted one by one. */
  function CountWhere<T>(s: seq<T>, p: T -> bool): (n: nat)
    ensures n <= |s|
    ensures n == 0 <==> forall x :: x in s ==> !p(x)
    decreases |s|
  {
    if |s| == 0 then 0
    else (if p(s[0]) then 1 else 0) + CountWhere(s[1..], p)
  }

  /** Counting the satisfying elements is the length of the filter. */
  lemma {:induction false} CountIsFilterLength<T>(s: seq<T>, p: T -> bool)
    ensures CountWhere(s, p) == |Filter(s, p)|
    decreases |s|
  {
    if |s| > 0 {
      CountIsFilterLength(s[1..], p);
    }
  }
}

=== FILE: server_config.dfy ===
/** The UI version string shown by the dashboard, derived from the package
    version. */
module ServerConfig {
  import Text

  /** An empty version reads "latest"; a version already starting with `v`
      or `V` is kept; any other gets a `v` in front. */
  function UiVersion(version: string): (r: string)
    ensures version == "" ==> r == "latest"
    ensures version != "" ==> |r| >= |version| && r[|r| - |version|..] == version
    ensures version != "" ==> r[0] in {'v', 'V'}
    ensures version != "" && version[0] in {'v', 'V'} ==> r == version
    ensures version != "" && version[0] !in {'v', 'V'} ==> r == "v" + version
  {
    if version == "" then "latest"
    else if version[0] == 'v' || version[0] == 'V' then version
    else "v" + version
  }

  /** For a non-empty version the rule is idempotent. The empty version is
      the exception: "latest" itself would become "vlatest". */
  lemma UiVersionIdempotent(version: string)
    ensures version != "" ==> UiVersion(UiVersion(version)) == UiVersion(version)
    ensures UiVersion(UiVersion("")) == "vlatest"
  {
  }
}

=== FILE: text.dfy ===
/** The string operations the dashboard's search boxes use: `toLowerCase`,
    `trim`, `includes` and `startsWith`. */
module Text {

  /** `c.toLowerCase()` on the ASCII range; other characters are kept. */
  function LowerChar(c: char): (d: char)
    ensures 'A' <= c <= 'Z' ==> 'a' <= d <= 'z' && d as int - c as int == 32
    ensures !('A' <= c <= 'Z') ==> d == c
  {
    if 'A' <= c <= 'Z' then (c as int + 32) as char else c
  }

  /** `s.toLowerCase()`, character by character. */
  function Lower(s: string): (r: string)
    ensures |r| == |s|
    ensures forall i :: 0 <= i < |s| ==> r[i] == LowerChar(s[i])
  {
    seq(|s|, i requires 0 <= i < |s| => LowerChar(s[i]))
  }

  /** Lower-casing leaves no upper-case letter behind, so it is idempotent. */
  lemma LowerIdempotent(s: string)
    ensures forall i :: 0 <= i < |s| ==> !('A' <= Lower(s)[i] <= 'Z')
    ensures Lower(Lower(s)) == Lower(s)
  {
  }

  /** The characters `String.prototype.trim` removes: the ECMAScript
      WhiteSpace and LineTerminator code points. */
  predicate IsWhitespace(c: char) {
    c in {'\U{0009}', '\U{000A}', '\U{000B}', '\U{000C}', '\U{000D}', '\U{0020}',
          '\U{00A0}', '\U{1680}', '\U{2000}', '\U{2001}', '\U{2002}', '\U{2003}',
          '\U{2004}', '\U{2005}', '\U{2006}', '\U{2007}', '\U{2008}', '\U{2009}',
          '\U{200A}', '\U{2028}', '\U{2029}', '\U{202F}', '\U{205F}', '\U{3000}',
          '\U{FEFF}'}
  }

  predicate AllWhitespace(s: string) {
    forall i :: 0 <= i < |s| ==> IsWhitespace(s[i])
  }

  /** Number of whitespace characters at the start of `s`. */
  function LeadingSpace(s: string): (n: nat)
    ensures n <= |s|
    ensures forall i :: 0 <= i < n ==> IsWhitespace(s[i])
    ensures n < |s| ==> !IsWhitespace(s[n])
    decreases |s|
  {
    if |s| > 0 && IsWhitespace(s[0]) then 1 + LeadingSpace(s[1..]) else 0
  }

  /** Number of whitespace characters at the end of `s`. */
  function TrailingSpace(s: string): (n: nat)
    ensures n <= |s|
    ensures forall i :: |s| - n <= i < |s| ==> IsWhitespace(s[i])
    ensures n < |s| ==> !IsWhitespace(s[|s| - n - 1])
    decreases |s|
  {
    if |s| > 0 && IsWhitespace(s[|s| - 1]) then 1 + TrailingSpace(s[..|s| - 1]) else 0
  }

  /** `s.trim()`: `s` without its leading and trailing whitespace. */
  function Trim(s: string): (r: string)
    ensures |r| <= |s|
    ensures r == "" <==> AllWhitespace(s)
    ensures r != "" ==> !IsWhitespace(r[0]) && !IsWhitespace(r[|r| - 1])
  {
    var i := LeadingSpace(s);
    var t := s[i..];
    var n := TrailingSpace(t);
    if i == |s| then
      assert s[..i] == s;
      ""
    else
      assert !IsWhitespace(t[0]);
      assert n < |t|;
      t[..|t| - n]
  }

  /** The trimmed string is the infix of `s` between a whitespace prefix
      and a whitespace suffix. */
  lemma TrimIsInfix(s: string)
    ensures exists i, j ::
      0 <= i <= j <= |s| && Trim(s) == s[i..j] && AllWhitespace(s[..i]) && AllWhitespace(s[j..])
  {
    var i := LeadingSpace(s);
    var t := s[i..];
    var n := TrailingSpace(t);
    var j := |s| - n;
    assert AllWhitespace(s[..i]) by {
      forall k | 0 <= k < i ensures IsWhitespace(s[..i][k]) {
        assert s[..i][k] == s[k];
      }
    }
    assert AllWhitespace(s[j..]) by {
      forall k | 0 <= k < n ensures IsWhitespace(s[j..][k]) {
        assert s[j..][k] == t[|t| - n + k];
      }
    }
    assert Trim(s) == s[i..j];
  }

  /** `s.startsWith(p)`. */
  predicate StartsWith(s: string, p: string) {
    |p| <= |s| && s[..|p|] == p
  }

  /** `s.includes(sub)`, scanning the start positions one by one. */
  predicate Includes(s: string, sub: string)
    decreases |s|
  {
    StartsWith(s, sub) || (|s| > 0 && Includes(s[1..], sub))
  }

  /** `sub` occurs in `s` starting at position `i`. */
  predicate OccursAt(s: string, sub: string, i: int) {
    0 <= i <= |s| - |sub| && s[i..i + |sub|] == sub
  }

  /** `Includes` holds exactly when `sub` occurs at some position of `s`. */
  lemma {:induction false} IncludesIffOccurs(s: string, sub: string)
    ensures Includes(s, sub) <==> exists i :: OccursAt(s, sub, i)
    decreases |s|
  {
    if StartsWith(s, sub) {
      assert OccursAt(s, sub, 0);
    } else if |s| > 0 {
      IncludesIffOccurs(s[1..], sub);
      if Includes(s[1..], sub) {
        var k :| OccursAt(s[1..], sub, k);
        assert s[1..][k..k + |sub|] == s[k + 1..k + 1 + |sub|];
        assert OccursAt(s, sub, k + 1);
      }
      if exists i :: OccursAt(s, sub, i) {
        var i :| OccursAt(s, sub, i);
        assert i > 0;
        assert s[1..][i - 1..i - 1 + |sub|] == s[i..i + |sub|];
        assert OccursAt(s[1..], sub, i - 1);
      }
    }
  }

  /** Every string includes the empty string, so an empty search keeps
      every row. */
  lemma IncludesEmpty(s: string)
    ensures Includes(s, "")
  {
  }
}

=== FILE: users_page.dfy ===
/** The users page: the user, group and group-member lists with their
    searches, the member count of a group, the access-level label of a
    network and the rule for offering "Edit" on a user. */
module UsersPage {
  import opened Nullish
  import opened Models
  import Seqs
  import Text

  /** A row of the groups table, `{ name }`. */
  datatype GroupRow = GroupRow(name: string)

  /** `haystack.toLowerCase().includes(search.trim().toLowerCase())`. */
  predicate MatchesTrimmed(haystack: string, search: string) {
    Text.Includes(Text.Lower(haystack), Text.Lower(Text.Trim(search)))
  }

  /** A search of whitespace only matches everything. */
  lemma BlankSearchMatches(haystack: string, search: string)
    requires Text.AllWhitespace(search)
    ensures MatchesTrimmed(haystack, search)
  {
    Text.IncludesEmpty(Text.Lower(haystack));
  }

  /** The users whose lower-cased name includes the trimmed, lower-cased
      search, in list order. */
  function FilteredUsers(users: seq<User>, usersSearch: string): (r: seq<User>)
    ensures forall u :: u in r <==> u in users && MatchesTrimmed(u.username, usersSearch)
    ensures |r| == Seqs.CountWhere(users, UserMatches(usersSearch))
  {
    Seqs.CountIsFilterLength(users, UserMatches(usersSearch));
    Seqs.Filter(users, UserMatches(usersSearch))
  }

  /** The user search test of one user. */
  function UserMatches(usersSearch: string): User -> bool {
    (u: User) => MatchesTrimmed(u.username, usersSearch)
  }

  /** The user search keeps order, and a blank search keeps every user. */
  lemma FilteredUsersOrderAndBlank(users: seq<User>, usersSearch: string)
    ensures Seqs.SubsequenceOf(FilteredUsers(users, usersSearch), users)
    ensures Text.AllWhitespace(usersSearch) ==> FilteredUsers(users, usersSearch) == users
  {
    var p := UserMatches(usersSearch);
    Seqs.FilterIsSubsequence(users, p);
    if Text.AllWhitespace(usersSearch) {
      forall u | u in users ensures p(u) {
        BlankSearchMatches(u.username, usersSearch);
      }
      Seqs.FilterAll(users, p);
    }
  }

  /** `userGroups.map(g => ({ name: g }))`. */
  function GroupRows(userGroups: seq<string>): (rows: seq<GroupRow>)
    ensures |rows| == |userGroups|
    ensures forall i :: 0 <= i < |rows| ==> rows[i].name == userGroups[i]
    ensures forall g :: g in rows <==> g.name in userGroups
  {
    var rows := Seqs.Map(userGroups, (g: string) => GroupRow(g));
    assert forall i :: 0 <= i < |userGroups| ==> rows[i] == GroupRow(userGroups[i]);
    rows
  }

  /** The group names wrapped as rows and searched like users. */
  function FilteredGroups(userGroups: seq<string>, groupSearch: string): (r: seq<GroupRow>)
    ensures forall g :: g in r <==> g.name in userGroups && MatchesTrimmed(g.name, groupSearch)
    ensures |r| == Seqs.CountWhere(GroupRows(userGroups), GroupMatches(groupSearch))
  {
    Seqs.CountIsFilterLength(GroupRows(userGroups), GroupMatches(groupSearch));
    Seqs.Filter(GroupRows(userGroups), GroupMatches(groupSearch))
  }

  /** The group search test of one row. */
  function GroupMatches(groupSearch: string): GroupRow -> bool {
    (g: GroupRow) => MatchesTrimmed(g.name, groupSearch)
  }

  /** The group rows keep the order of the group list: the names of the
      rows are a subsequence of the group names. */
  lemma FilteredGroupsOrder(userGroups: seq<string>, groupSearch: string)
    ensures Seqs.SubsequenceOf(Seqs.Map(FilteredGroups(userGroups, groupSearch), (g: GroupRow) => g.name), userGroups)
  {
    var rows := GroupRows(userGroups);
    var p := GroupMatches(groupSearch);
    Seqs.FilterIsSubsequence(rows, p);
    SubsequenceOfNames(Seqs.Filter(rows, p), rows);
    assert Seqs.Map(rows, (g: GroupRow) => g.name) == userGroups;
  }

  /** Taking the names keeps the subsequence relation. */
  lemma {:induction false} SubsequenceOfNames(r: seq<GroupRow>, s: seq<GroupRow>)
    requires Seqs.SubsequenceOf(r, s)
    ensures Seqs.SubsequenceOf(Seqs.Map(r, (g: GroupRow) => g.name), Seqs.Map(s, (g: GroupRow) => g.name))
    decreases |s|
  {
    var f := (g: GroupRow) => g.name;
    if |r| > 0 {
      assert Seqs.Map(r, f)[1..] == Seqs.Map(r[1..], f);
      assert Seqs.Map(s, f)[1..] == Seqs.Map(s[1..], f);
      if r[0] == s[0] && Seqs.SubsequenceOf(r[1..], s[1..]) {
        SubsequenceOfNames(r[1..], s[1..]);
      } else {
        SubsequenceOfNames(r, s[1..]);
      }
    }
  }

  /** `u.groups?.includes(group)`: an absent group list includes nothing. */
  predicate InGroup(u: User, group: string) {
    u.groups.Some? && group in u.groups.value
  }

  /** The membership test of `group`, as a test on users. */
  function InGroupOf(group: string): User -> bool {
    (u: User) => InGroup(u, group)
  }

  /** The property names every plain object inherits from
      `Object.prototype`; looking one of them up on `{}` gives a truthy
      value. */
  const InheritedNames: set<string> := {
    "constructor", "__proto__", "__defineGetter__", "__defineSetter__",
    "__lookupGetter__", "__lookupSetter__", "hasOwnProperty", "isPrototypeOf",
    "propertyIsEnumerable", "toString", "toLocaleString", "valueOf"}

  /** The names of the filtered group rows. */
  function RowNames(filteredGroups: seq<GroupRow>): (names: set<string>)
    ensures forall g :: g in names <==> GroupRow(g) in filteredGroups
  {
    set g | g in filteredGroups :: g.name
  }

  /** `groupsMap[g]` as the page evaluates it: truthy when `g` is a filtered
      group, and also when `g` names an inherited property. */
  predicate GroupsMapLookupAsWritten(filteredGroups: seq<GroupRow>, g: string) {
    g in RowNames(filteredGroups) || g in InheritedNames
  }

  /** The users listed in the group-members table, as the page computes
      them. A selected group of `""` is falsy and counts as no selection. */
  function FilteredGroupUsersAsWritten(users: seq<User>, filteredGroups: seq<GroupRow>, selectedGroup: Option<string>): (r: seq<User>)
    ensures selectedGroup.None? || selectedGroup.value == "" ==>
      forall u :: u in r <==> (u in users && u.groups.Some?
        && exists g :: g in u.groups.value && GroupsMapLookupAsWritten(filteredGroups, g))
  {
    if selectedGroup.Some? && selectedGroup.value != "" then
      Seqs.Filter(users, (u: User) => InGroup(u, selectedGroup.value))
    else
      Seqs.Filter(users, (u: User) => u.groups.Some? &&
        exists g :: g in u.groups.value && GroupsMapLookupAsWritten(filteredGroups, g))
  }

  /** With no group listed at all, a user whose only group is called
      "constructor" is still shown as a member. */
  lemma InheritedNameLeaks()
    ensures var u := User("alice", false, Some(["constructor"]));
      && FilteredGroups([], "") == []
      && FilteredGroupUsersAsWritten([u], FilteredGroups([], ""), None) == [u]
      && FilteredGroupUsers([u], FilteredGroups([], ""), None) == []
  {
    var u := User("alice", false, Some(["constructor"]));
    assert GroupsMapLookupAsWritten([], "constructor");
    assert "constructor" in u.groups.value;
  }

  /** The users listed in the group-members table: with a (non-empty)
      selected group, its members, regardless of the group search; otherwise
      the users having at least one group among the filtered group rows. */
  function FilteredGroupUsers(users: seq<User>, filteredGroups: seq<GroupRow>, selectedGroup: Option<string>): (r: seq<User>)
    ensures selectedGroup.Some? && selectedGroup.value != "" ==>
      forall u :: u in r <==> u in users && InGroup(u, selectedGroup.value)
    ensures selectedGroup.None? || selectedGroup.value == "" ==>
      forall u :: u in r <==> u in users && exists g :: InGroup(u, g) && GroupRow(g) in filteredGroups
    ensures forall u :: u in r ==> u.groups.Some?
    ensures Seqs.SubsequenceOf(r, users)
    ensures |r| == Seqs.CountWhere(users, MemberTest(filteredGroups, selectedGroup))
  {
    var p := MemberTest(filteredGroups, selectedGroup);
    Seqs.FilterIsSubsequence(users, p);
    Seqs.CountIsFilterLength(users, p);
    Seqs.Filter(users, p)
  }

  /** The member test of one user: in the selected group when there is one,
      otherwise in a group among the filtered rows. */
  function MemberTest(filteredGroups: seq<GroupRow>, selectedGroup: Option<string>): User -> bool {
    var names := RowNames(filteredGroups);
    if selectedGroup.Some? && selectedGroup.value != "" then
      InGroupOf(selectedGroup.value)
    else
      (u: User) => u.groups.Some? && exists g :: g in u.groups.value && g in names
  }

  /** The "Users" cell of a group row: the users whose groups include it,
      counted one by one. */
  method GroupUsersCount(users: seq<User>, group: GroupRow) returns (usersCount: nat)
    ensures usersCount == |Seqs.Filter(users, InGroupOf(group.name))|
  {
    var p := InGroupOf(group.name);
    usersCount := 0;
    var i := 0;
    while i < |users|
      invariant 0 <= i <= |users|
      invariant usersCount + Seqs.CountWhere(users[i..], p) == Seqs.CountWhere(users, p)
    {
      assert users[i..][1..] == users[i + 1..];
      if p(users[i]) {
        usersCount := usersCount + 1;
      }
      i := i + 1;
    }
    Seqs.CountIsFilterLength(users, p);
  }

  /** The count of a group equals the number of rows the members table
      shows when that group is selected. */
  lemma GroupCountMatchesMembers(users: seq<User>, filteredGroups: seq<GroupRow>, group: string)
    requires group != ""
    ensures Seqs.CountWhere(users, InGroupOf(group))
         == |FilteredGroupUsers(users, filteredGroups, Some(group))|
  {
  }

  /** A group named "" breaks the agreement between its count and its
      member list: selecting it sets the selection to "", which is falsy,
      so the page lists the members of all filtered rows instead. Here bob
      is in "" and "x", carol only in "x": the count of "" is 1 while the
      list shows both. */
  lemma EmptyGroupNameDisagrees()
    ensures var bob := User("bob", false, Some(["", "x"]));
      var carol := User("carol", false, Some(["x"]));
      && Seqs.CountWhere([bob, carol], InGroupOf("")) == 1
      && FilteredGroupUsers([bob, carol], [GroupRow(""), GroupRow("x")], Some("")) == [bob, carol]
  {
    var bob := User("bob", false, Some(["", "x"]));
    var carol := User("carol", false, Some(["x"]));
    assert InGroup(bob, "") && !InGroup(carol, "");
    assert InGroup(bob, "x") && GroupRow("x") in [GroupRow(""), GroupRow("x")];
    assert InGroup(carol, "x");
  }

  /** The "Default Access Level" tag of a network; only levels 0 to 3 have
      one. */
  function AccessLevelLabel(level: Option<int>): (tag: Option<string>)
    ensures tag.Some? <==> level.Some? && 0 <= level.value <= 3
    ensures tag.Some? ==> |tag.value| > 0 && tag.value[0] as int - '0' as int == level.value
  {
    match level
    case Some(0) => Some("0 - Network Admin")
    case Some(1) => Some("1 - Host Access")
    case Some(2) => Some("2 - Client Access")
    case Some(3) => Some("3 - No Access")
    case _ => None
  }

  /** "Edit" is offered on a user unless it is an admin other than the
      signed-in user. */
  function CanEditUser(user: User, currentUsername: string): (shown: bool)
    ensures shown <==> !user.isadmin || user.username == currentUsername
  {
    !user.isadmin || (user.isadmin && user.username == currentUsername)
  }

  /** The signed-in user may always edit their own row, and "Edit" is
      withheld exactly from the admins other than the signed-in user. */
  lemma EditRule(user: User, currentUsername: string)
    ensures CanEditUser(user, user.username)
    ensures !user.isadmin ==> CanEditUser(user, currentUsername)
    ensures user.isadmin && user.username != currentUsername ==> !CanEditUser(user, currentUsername)
  {
  }
}
